=== FILE: README.md ===
# CIFAR-10 ResNet training script: a Dafny model of its deterministic core

`ResNet/resnet_run.py` trains a residual network on CIFAR-10 through
TensorFlow. Almost all of it hands work to the library. Four pieces are its
own deterministic logic, and this project models and proves them:

- **Record decoding** (`parse_record`). A 3073-byte record holds one label
  byte and a 32×32×3 image stored channel-major. Decoding reshapes the image
  bytes to [C, H, W] and transposes them to [H, W, C] (`record.dfy`, module
  `RecordLayout`).
- **Depth check and block layout** (`Cifar10Model.__init__`). The network
  depth must be 6n+2. It gives three stacks of n two-convolution blocks with
  strides 1, 2, 2 (`depth.dfy`, module `Cifar10Depth`).
- **Learning-rate schedules** (`learning_rate_with_decay`). The step-decay
  schedule is built from a boundary table and a value table, and can start
  with a 5-epoch linear warmup. The LARS polynomial schedule picks its peak
  rate and warmup length from the batch size. The table lookup is in
  `piecewise.dfy` (module `Piecewise`); the rest is in `schedule.dfy`
  (module `LearningRate`).
- **Gradient-list transforms** (`resnet_model_fn`). The fine-tune filter
  keeps only the pairs of the final dense layer. Loss-scale unscaling divides
  each gradient by the loss scale (`gradients.dfy`, module `GradientStage`).

`outcomes.dfy` (module `Outcomes`) holds the `Result` and `Option` types.
Each exception the model covers, and each non-finite value it tracks, is one
`Error` case.

Modelling conventions:
- Rates and gradients are `real`, so arithmetic is exact. Python's `int()`
  on a float truncates toward zero, and `LearningRate.Trunc` models it.
- Python's `%` and `//` by 6 agree with Dafny's operators, because the
  divisor is positive.
- The LARS switch and the batch-size flag are parameters
  (`ScheduleConfig.enableLars` and `ScheduleConfig.flagBatchSize`). The
  source reads them from the global flags at lines 455 and 424. The tables
  instead use the `batch_size` argument (lines 389-390), which is a separate
  field. In the CIFAR set-up the two are one value: line 466 passes
  `params['batch_size']`, and line 218 fills that parameter from the flag.
  `LearningRate.CifarConfig` sets both fields from one batch size.
- `compute_gradients` is external. The gradients of `loss * loss_scale` are
  modelled as the gradients of `loss` times the scale, because
  differentiation is linear.

Three behaviours of the code that are easy to misread:
- A record longer than 3073 bytes decodes with its tail ignored. Parsing
  reads byte 0 and slices `[1:3073]` (lines 55-64), so only a record
  shorter than 3073 bytes fails.
- The label is never range-checked against `NUM_CLASSES` (lines 28 and 59).
  It is the record's first byte cast to an integer, so the model promises
  only 0 ≤ label < 256.
- A step equal to a boundary stays in the earlier piece (line 400), so the
  step-decay index is the number of boundaries strictly below the step
  (`Piecewise.SegmentIndexCountsBelow`).

## Model

| member | source | states |
|---|---|---|
| RecordLayout.DecodeRecord | ResNet/resnet_run.py:52-69 | fails exactly when the record is shorter than 3073 bytes; otherwise the label is byte 0 (so 0 ≤ label < 256), the image has shape 32×32×3, and pixel (h, w, c) is record byte 1 + c·1024 + h·32 + w |
| RecordLayout.DepthMajor | ResNet/resnet_run.py:64 | the reshape gives a [3, 32, 32] tensor whose (c, h, w) element is pixel byte c·1024 + h·32 + w |
| RecordLayout.ToChannelsLast | ResNet/resnet_run.py:69 | the transpose with permutation [1, 2, 0] gives a [32, 32, 3] tensor with element (h, w, c) = input element (c, h, w) |
| RecordLayout.DecodeImage | ResNet/resnet_run.py:64-69 | reshape-then-transpose places pixel byte c·1024 + h·32 + w at image position (h, w, c) |
| RecordLayout.EncodeDecodeImage | ResNet/resnet_run.py:64-69 | applying the inverse layout map to a decoded image gives back all 3072 pixel bytes exactly |
| RecordLayout.DecodeEncodeImage | ResNet/resnet_run.py:64-69 | decoding the bytes encoded from any 32×32×3 image gives back that image, so the layout map is a bijection |
| RecordLayout.DecodeRecordRoundTrip | ResNet/resnet_run.py:55-69 | a 3073-byte record decodes, and its label and image re-encode to the same record |
| RecordLayout.EncodeRecordRoundTrip | ResNet/resnet_run.py:55-69 | every (label byte, image) pair comes back unchanged from decoding the record built from it |
| RecordLayout.RecordLengthIs3073 | ResNet/resnet_run.py:22-27 | the image is 3072 bytes and the record 3073 |
| Cifar10Depth.Cifar10Model | ResNet/resnet_run.py:164-182 | accepted exactly when resnet_size = 6n+2 for some integer n, and otherwise fails with the size as the error; when accepted, 2·(total blocks)+2 = resnet_size, the three stacks have equal block counts, the strides are [1, 2, 2], bottleneck blocks are off, the class count and version are the ones passed in, and the CIFAR constants are 16 filters, kernel 3, conv stride 1 and no first pooling |
| Cifar10Depth.BlockCountRoundTrip | ResNet/resnet_run.py:164-178 | for every block count n, class count and version, the depth 6n+2 is accepted and produces the layout [n, n, n] |
| Cifar10Depth.DepthExamples | ResNet/resnet_run.py:164-182 | depth 56 gives nine blocks per stack with the CIFAR constants; 55 is rejected |
| Piecewise.SegmentIndex | ResNet/resnet_run.py:400 | the index found is the first boundary at or above the step: every earlier boundary is below the step |
| Piecewise.PiecewiseConstant | ResNet/resnet_run.py:400 | the lookup fails when the value table is not one longer than the boundary table, or when there are no boundaries; otherwise it returns a table value, and values[0] whenever step ≤ boundaries[0] |
| Piecewise.SegmentIndexSelectsPiece | ResNet/resnet_run.py:400 | with ascending boundaries, the index found is the one and only piece whose interval (b[i-1], b[i]] contains the step |
| Piecewise.SegmentIndexCountsBelow | ResNet/resnet_run.py:400 | with ascending boundaries, the index counts the boundaries strictly below the step |
| Piecewise.SegmentIndexMonotone | ResNet/resnet_run.py:400 | a later step never falls in an earlier piece |
| Piecewise.PiecewiseEnds | ResNet/resnet_run.py:400 | the rate is values[0] up to and including the first boundary, and the last value past the last boundary |
| Piecewise.PiecewiseInterior | ResNet/resnet_run.py:400 | between boundaries b[i-1] < step ≤ b[i] the rate is values[i] |
| Piecewise.PiecewiseNonincreasing | ResNet/resnet_run.py:400 | with non-increasing values, the looked-up rate never grows with the step |
| LearningRate.Trunc | ResNet/resnet_run.py:395 | Python `int()` truncates toward zero: the result lies within one of the argument, on the zero side |
| LearningRate.BuildTables | ResNet/resnet_run.py:389-396 | fails (ZeroDivisionError) exactly when the batch size or the denominator is 0; otherwise initial·denom = base_lr·batch_size and batches_per_epoch·batch_size = num_images; there is one boundary per epoch boundary, the truncated step count reached at that epoch; and there is one value per decay rate, the initial rate times that rate |
| LearningRate.Ramp | ResNet/resnet_run.py:403-405 | the warmup rate times the warmup length equals the target rate times the step |
| LearningRate.RampBounds | ResNet/resnet_run.py:403-405 | for a non-negative target and a step within the ramp, the ramp is 0 at step 0, lies within [0, target], is strictly below a positive target before the last step, and equals the target at the last step |
| LearningRate.RampMonotone | ResNet/resnet_run.py:403-405 | for a non-negative target the ramp never decreases as the step grows |
| LearningRate.WarmupSteps | ResNet/resnet_run.py:402 | the step-decay warmup lasts five epochs of batches truncated toward zero: for a non-negative number of batches per epoch, the largest whole number of steps not above 5·batches_per_epoch (mirrored for a negative count) |
| LearningRate.StepDecayRate | ResNet/resnet_run.py:398-409 | fails exactly when the tables are malformed, even during warmup; with warmup and step < warmup_steps, warmup_steps > 0 and the rate is the linear ramp to the initial rate; otherwise the rate is the table lookup |
| LearningRate.PolyBracket | ResNet/resnet_run.py:424-435 | below 8192 the peak is 5.0 with 5 warmup epochs; from 8192 below 16384 it is 10.0 with 5; from 16384 below 32768 it is 25.0 with 5; from 32768 on it is 32.0 with 14 |
| LearningRate.PolyWarmupSteps | ResNet/resnet_run.py:437 | the polynomial warmup lasts the bracket's warmup epochs of batches truncated toward zero: the largest whole number of steps not above w_epochs·batches_per_epoch for a non-negative count (mirrored for a negative one) |
| LearningRate.PolyRate | ResNet/resnet_run.py:437-452 | fails (0/0) exactly at step 0 when warmup lasts zero steps; for step ≤ w_steps the rate is the linear ramp to the bracket's peak; after warmup it is a polynomial decay from the bracket's peak rate at position step − w_steps ≥ 1 of a decay spanning train_steps − w_steps + 1 steps (train_steps = 90 epochs of batches), with end rate 0.0001 and power 2 |
| LearningRate.LearningRateWithDecay | ResNet/resnet_run.py:384-458 | fails exactly when the batch size argument or the denominator is 0; selects the polynomial schedule exactly when LARS is enabled, keeping the batch-size flag (which picks the bracket) or the warmup flag; either way the schedule carries the initial rate, batches per epoch, boundaries and values that the table construction computes from the configuration |
| LearningRate.RateAt | ResNet/resnet_run.py:398-458 | a step-decay schedule succeeds exactly when its tables are well shaped, and then yields exactly the step-decay rate (warmup ramp or table lookup) at that step; when it fails, the error is the lookup's own (length mismatch or empty boundaries); a polynomial schedule yields the LARS rate at that step |
| LearningRate.CifarBatch128Tables | ResNet/resnet_run.py:466-469 | for batch 128 the CIFAR set-up starts at 0.4, with 375 batches per epoch, boundaries at steps 34125, 47250 and 68250, and values 0.4, 0.04, 0.004 and 0.0004 |
| LearningRate.CifarBatch128WarmupSteps | ResNet/resnet_run.py:402-437 | for batch 128 both warmups are 1875 steps: five epochs of 375 batches |
| LearningRate.EpochToStepMonotone | ResNet/resnet_run.py:395 | for a non-negative number of batches per epoch, a later epoch never converts to an earlier step |
| LearningRate.BoundariesNondecreasing | ResNet/resnet_run.py:390-395 | ascending epoch boundaries give ascending step boundaries, for a positive batch size |
| LearningRate.ValuesNonincreasing | ResNet/resnet_run.py:389-396 | non-increasing decay rates with a non-negative base rate give non-increasing table values |
| LearningRate.CifarStepDecayNonincreasing | ResNet/resnet_run.py:466-469 | the CIFAR configuration with LARS off (a step-decay schedule without warmup, decay rates [1, 0.1, 0.01, 0.001]) is defined at every step and never increases, for any positive batch size |
| LearningRate.WarmupStartsAtZero | ResNet/resnet_run.py:401-408 | with warmup and warmup_steps > 0, the rate at step 0 is 0 |
| LearningRate.WarmupBelowInitial | ResNet/resnet_run.py:401-408 | during warmup the rate is non-negative and strictly below the initial rate |
| LearningRate.WarmupMonotone | ResNet/resnet_run.py:401-408 | the warmup ramp is non-decreasing in the step |
| LearningRate.AfterWarmupIsStepDecay | ResNet/resnet_run.py:401-408 | from warmup_steps on, the warmed-up schedule equals the plain step decay, and it is the first table value while the first boundary has not been passed |
| LearningRate.PolyPeakMonotone | ResNet/resnet_run.py:424-435 | a larger batch size never gets a smaller peak rate or a shorter warmup |
| LearningRate.PolyRamp | ResNet/resnet_run.py:437-452 | during the polynomial warmup the rate is within [0, peak], 0 at step 0, and exactly the peak at step w_steps (the ramp test includes that step) |
| GradientStage.ContainsSubstring | ResNet/resnet_run.py:337 | Python's `sub in s` is true exactly when `sub` occurs as a contiguous slice of `s` |
| GradientStage.DenseGradFilter | ResNet/resnet_run.py:329-337 | the result is no longer than the input, and every pair it keeps has a variable name containing "dense" |
| GradientStage.DenseFilterCounts | ResNet/resnet_run.py:337 | every pair whose variable name contains "dense" is kept as often as it occurs; every other pair is dropped |
| GradientStage.DenseFilterConcat | ResNet/resnet_run.py:337 | filtering distributes over concatenation, so the kept pairs keep their original order |
| GradientStage.DenseFilterKeepsDense | ResNet/resnet_run.py:337 | a list of dense pairs only is returned unchanged |
| GradientStage.DenseFilterIdempotent | ResNet/resnet_run.py:337 | filtering twice equals filtering once |
| GradientStage.ScaleGradients | ResNet/resnet_run.py:343 | the gradients of the scaled loss keep the variables and order, each gradient times the scale |
| GradientStage.UnscaleGradients | ResNet/resnet_run.py:350-351 | unscaling keeps length, order and variables, and each new gradient times the scale equals the old one |
| GradientStage.UnscaleByOne | ResNet/resnet_run.py:339 | dividing by a scale of 1 changes nothing |
| GradientStage.UnscaleScaleRoundTrip | ResNet/resnet_run.py:343-351 | unscaling undoes scaling exactly for any non-zero scale |
| GradientStage.RescaleGradients | ResNet/resnet_run.py:343-351 | multiplying or dividing every gradient keeps the length, the order and every variable name |
| GradientStage.DenseFilterCommutesWithRescale | ResNet/resnet_run.py:343-351 | filtering commutes with multiplying or dividing the gradients, so filtering the scaled gradients equals scaling the filtered ones, and likewise for unscaling |
| GradientStage.GradientsToApply | ResNet/resnet_run.py:339-357 | fails (0/0) exactly when the scale is 0 and some gradient is kept; otherwise the pairs applied are the input gradients themselves, or the dense subset under fine-tuning, whatever the scale; under fine-tuning no non-dense variable receives a gradient |
| GradientStage.LossScaleInvariance | ResNet/resnet_run.py:339-357 | any non-zero loss scale gives the same update as a scale of 1 |

## Left out

- Floating point: rates and gradients are exact reals. The float32 casts of the step (lines 404-405, 438-439) and all rounding are not modelled, so the loss-scale invariance holds exactly here and only approximately in float arithmetic.
- `preprocess_image` (lines 77-89): the pad and random crop are random, and per-image standardization is floating-point numerics. The decoded image is the one produced before this step, and the final dtype cast (line 72) is not modelled.
- The input pipeline (lines 111-138): file listing, shuffle, repeat, batching, drop-remainder and prefetch are library calls, and prefetch exists for concurrency. `get_filenames` (lines 41-49) is filesystem I/O.
- The network, the losses and the optimizers (lines 257-326 and 359-381): the forward pass, cross entropy, the L2 term and its batch-norm name filter, Momentum and LARS, and the accuracy metrics are all external library calls.
- The polynomial decay curve (line 447) is a library function. `LearningRate.PolyRate` returns its arguments instead: the peak rate, the position `max(1, step - w_steps)` inside the decay, the span `train_steps - w_steps + 1`, the end rate 0.0001 (the library default) and the power 2.
- Piecewise.PiecewiseConstant: for boundaries that are not ascending, the library's exclusive case selection can raise at run time. The model still returns the first piece that matches. Every lemma that relates the lookup to the interval semantics therefore requires ascending boundaries, which the CIFAR tables have (`LearningRate.BoundariesNondecreasing`).
- LearningRate.PolyRate: the floor in `max(1, step - w_steps)` is modelled, but past warmup the difference is already at least 1, so the floor never changes the position.
- LearningRate.BuildTables: the boundaries are exact-real truncations, but line 395 truncates a rounded double. So the program's boundary can be one step below the model's. With 48000 images, batch size 35 and epoch 91, `48000/35*91` is `124799.99999999999` in IEEE double arithmetic, so the program's boundary is 124799 and the model's is 124800. Batch size 91 gives 47999 against 48000.
- Cifar10Depth.Cifar10Model: the `dtype` that the constructor passes on (line 181) is not a field of `ModelParams`. It only selects the float type of the network's variables, which is floating-point numerics.
- GradientStage.GradientsToApply: gradients of variables that the loss does not depend on (`None` entries from `compute_gradients`) are not modelled; every pair carries a real gradient. The optimizer's rejection of an empty list (`apply_gradients` raises ValueError at lines 352 and 357) is not modelled either: when fine-tuning keeps nothing, or the scale is 0 and nothing is kept, the model returns `Ok([])`.
- Estimator, RunConfig and warm-start set-up, flag definitions, `run_cifar` and `main` (lines 185-242 and 491-610) are configuration and I/O glue.

=== FILE: depth.dfy ===
/** Construction-time parameters of the CIFAR-10 residual network: the depth
    check on resnet_size and the block layout derived from it. The network
    itself is an external collaborator; only its configuration is modelled. */
module Cifar10Depth {
  import opened Outcomes
  import RecordLayout

  const NumStacks: nat := 3

  /** Arguments handed to the base model constructor. */
  datatype ModelParams = ModelParams(
    resnetSize: int,
    bottleneck: bool,
    numClasses: int,
    numFilters: int,
    kernelSize: int,
    convStride: int,
    firstPoolSize: Option<int>,
    firstPoolStride: Option<int>,
    blockSizes: seq<int>,
    blockStrides: seq<int>,
    resnetVersion: int)

  /** Number of convolution layers of a non-bottleneck network with `n`
      two-convolution blocks in each of the three stacks, plus the initial
      convolution and the final dense layer. */
  function LayerCount(n: int): int {
    2 * (NumStacks * n) + 2
  }

  function Sum(s: seq<int>): int {
    if |s| == 0 then 0 else s[0] + Sum(s[1..])
  }

  lemma SumOfStacks(n: int)
    ensures Sum([n, n, n]) == NumStacks * n
  {
    assert [n][1..] == [];
    assert Sum([n]) == n;
    assert [n, n][1..] == [n];
    assert Sum([n, n]) == 2 * n;
    assert [n, n, n][1..] == [n, n];
  }

  lemma LayerCountsAreTwoModSix(size: int)
    requires size % 6 != 2
    ensures forall n :: LayerCount(n) != size
  {
    forall n ensures LayerCount(n) != size {
      assert LayerCount(n) == 6 * n + 2;
      assert (6 * n + 2) % 6 == 2;
    }
  }

  /** Python's `%` and `//` by the positive constant 6 agree with Dafny's
      Euclidean operators, so the check and the block count below are exact. */
  function Cifar10Model(resnetSize: int, numClasses: int, resnetVersion: int): (r: Result<ModelParams>)
    ensures r.Ok? <==> exists n :: LayerCount(n) == resnetSize
    ensures r.Err? ==> r.error == InvalidResnetSize(resnetSize)
    ensures r.Ok? ==> r.value.resnetSize == resnetSize && !r.value.bottleneck
    ensures r.Ok? ==> |r.value.blockSizes| == NumStacks
                      && LayerCount(r.value.blockSizes[0]) == resnetSize
                      && 2 * Sum(r.value.blockSizes) + 2 == resnetSize
    ensures r.Ok? ==> forall i :: 0 <= i < NumStacks ==> r.value.blockSizes[i] == r.value.blockSizes[0]
    ensures r.Ok? ==> r.value.blockStrides == [1, 2, 2]
    ensures r.Ok? ==> r.value.numClasses == numClasses && r.value.resnetVersion == resnetVersion
    ensures r.Ok? ==> && r.value.numFilters == 16 && r.value.kernelSize == 3 && r.value.convStride == 1
                      && r.value.firstPoolSize == None && r.value.firstPoolStride == None
  {
    if resnetSize % 6 != 2 then
      LayerCountsAreTwoModSix(resnetSize);
      Err(InvalidResnetSize(resnetSize))
    else
      var numBlocks := (resnetSize - 2) / 6;
      assert LayerCount(numBlocks) == resnetSize;
      SumOfStacks(numBlocks);
      Ok(ModelParams(
        resnetSize := resnetSize,
        bottleneck := false,
        numClasses := numClasses,
        numFilters := 16,
        kernelSize := 3,
        convStride := 1,
        firstPoolSize := None,
        firstPoolStride := None,
        blockSizes := [numBlocks, numBlocks, numBlocks],
        blockStrides := [1, 2, 2],
        resnetVersion := resnetVersion))
  }

  /** Every block count gives an accepted depth, and that depth is decoded
      back to the same block count: depth and block count are in bijection. */
  lemma BlockCountRoundTrip(n: int, numClasses: int, resnetVersion: int)
    ensures Cifar10Model(LayerCount(n), numClasses, resnetVersion).Ok?
    ensures Cifar10Model(LayerCount(n), numClasses, resnetVersion).value.blockSizes == [n, n, n]
  {
    var r := Cifar10Model(LayerCount(n), numClasses, resnetVersion);
    assert r.value.blockSizes[0] == n;
  }

  /** The default depth 56 has nine blocks per stack; 55 is rejected. */
  lemma DepthExamples()
    ensures Cifar10Model(56, RecordLayout.NumClasses, 1) ==
            Ok(ModelParams(56, false, 10, 16, 3, 1, None, None, [9, 9, 9], [1, 2, 2], 1))
    ensures Cifar10Model(55, RecordLayout.NumClasses, 1) == Err(InvalidResnetSize(55))
  {
  }
}

=== FILE: gradients.dfy ===
/** The list transforms applied to (gradient, variable) pairs before the
    optimizer update: the fine-tune filter that keeps only the final dense
    layer, and the undoing of loss scaling. Gradients are exact reals;
    differentiation itself is external, and the gradients of a scaled loss
    are modelled as the gradients of the loss times the scale. */
module GradientStage {
  import opened Outcomes

  datatype GradVar = GradVar(grad: real, varName: string)

  /** Marker in the name of the final classification layer's variables. */
  const DenseMarker: string := "dense"

  /** `sub` occurs in `s` starting at position `i`. */
  ghost predicate OccursAt(sub: string, s: string, i: int) {
    0 <= i <= |s| - |sub| && s[i..i + |sub|] == sub
  }

  /** `sub` occurs as a contiguous slice of `s`. */
  ghost predicate OccursIn(sub: string, s: string) {
    exists i :: OccursAt(sub, s, i)
  }

  /** Python's `sub in s` on strings, scanning left to right. */
  function ContainsSubstring(s: string, sub: string): (b: bool)
    ensures b <==> OccursIn(sub, s)
    decreases |s|
  {
    if |s| < |sub| then false
    else if s[..|sub|] == sub then
      assert OccursAt(sub, s, 0);
      true
    else
      var rest := ContainsSubstring(s[1..], sub);
      assert rest ==> OccursIn(sub, s) by {
        if rest {
          var i :| OccursAt(sub, s[1..], i);
          assert s[i + 1..i + 1 + |sub|] == s[1..][i..i + |sub|];
          assert OccursAt(sub, s, i + 1);
        }
      }
      assert OccursIn(sub, s) ==> rest by {
        if OccursIn(sub, s) {
          var i :| OccursAt(sub, s, i);
          assert i != 0;
          assert s[1..][i - 1..i - 1 + |sub|] == s[i..i + |sub|];
          assert OccursAt(sub, s[1..], i - 1);
        }
      }
      rest
  }

  predicate IsDense(gv: GradVar) {
    ContainsSubstring(gv.varName, DenseMarker)
  }

  /** _dense_grad_filter: the pairs whose variable name contains "dense",
      each as often as it occurs, in their original order. */
  function DenseGradFilter(gvs: seq<GradVar>): (r: seq<GradVar>)
    ensures |r| <= |gvs|
    ensures forall i :: 0 <= i < |r| ==> IsDense(r[i])
  {
    if |gvs| == 0 then []
    else (if IsDense(gvs[0]) then [gvs[0]] else []) + DenseGradFilter(gvs[1..])
  }

  /** The filter keeps every dense pair as often as it occurs and drops
      every other pair. */
  lemma {:induction false} DenseFilterCounts(gvs: seq<GradVar>)
    ensures forall x :: multiset(DenseGradFilter(gvs))[x] == if IsDense(x) then multiset(gvs)[x] else 0
  {
    if |gvs| > 0 {
      DenseFilterCounts(gvs[1..]);
      assert gvs == [gvs[0]] + gvs[1..];
    }
  }

  /** The two ways the loss scale touches a gradient list: multiplying
      (differentiating the scaled loss) and dividing (undoing the scale).
      Both keep every variable and change only its gradient. */
  datatype Rescale = Times(factor: real) | DividedBy(divisor: real)

  predicate ValidRescale(op: Rescale) {
    op.DividedBy? ==> op.divisor != 0.0
  }

  function Rescaled(gv: GradVar, op: Rescale): GradVar
    requires ValidRescale(op)
  {
    match op
    case Times(k) => gv.(grad := gv.grad * k)
    case DividedBy(k) => gv.(grad := gv.grad / k)
  }

  /** Applies one rescaling to every pair, keeping the variables and their
      order. */
  function RescaleGradients(gvs: seq<GradVar>, op: Rescale): (r: seq<GradVar>)
    requires ValidRescale(op)
    ensures |r| == |gvs|
    ensures forall i :: 0 <= i < |gvs| ==> r[i].varName == gvs[i].varName
    ensures forall i :: 0 <= i < |gvs| ==> r[i] == Rescaled(gvs[i], op)
  {
    seq(|gvs|, i requires 0 <= i < |gvs| => Rescaled(gvs[i], op))
  }

  /** Gradients of `loss * lossScale` given the gradients of `loss`. */
  function ScaleGradients(gvs: seq<GradVar>, lossScale: real): (r: seq<GradVar>)
    ensures |r| == |gvs|
    ensures forall i :: 0 <= i < |gvs| ==>
              r[i].varName == gvs[i].varName && r[i].grad == gvs[i].grad * lossScale
  {
    RescaleGradients(gvs, Times(lossScale))
  }

  /** Divides every gradient by the loss scale, keeping the variables and
      their order. */
  function UnscaleGradients(gvs: seq<GradVar>, lossScale: real): (r: seq<GradVar>)
    requires lossScale != 0.0
    ensures |r| == |gvs|
    ensures forall i :: 0 <= i < |gvs| ==>
              r[i].varName == gvs[i].varName && r[i].grad * lossScale == gvs[i].grad
  {
    RescaleGradients(gvs, DividedBy(lossScale))
  }

  /** Filtering distributes over concatenation, so it keeps the relative
      order of the pairs it keeps. */
  lemma {:induction false} DenseFilterConcat(a: seq<GradVar>, b: seq<GradVar>)
    ensures DenseGradFilter(a + b) == DenseGradFilter(a) + DenseGradFilter(b)
  {
    if |a| == 0 {
      assert a + b == b;
    } else {
      assert (a + b)[1..] == a[1..] + b;
      DenseFilterConcat(a[1..], b);
    }
  }

  /** A list of dense pairs only passes through unchanged. */
  lemma {:induction false} DenseFilterKeepsDense(gvs: seq<GradVar>)
    requires forall i :: 0 <= i < |gvs| ==> IsDense(gvs[i])
    ensures DenseGradFilter(gvs) == gvs
  {
    if |gvs| > 0 {
      DenseFilterKeepsDense(gvs[1..]);
    }
  }

  /** Filtering twice is filtering once. */
  lemma DenseFilterIdempotent(gvs: seq<GradVar>)
    ensures DenseGradFilter(DenseGradFilter(gvs)) == DenseGradFilter(gvs)
  {
    DenseFilterKeepsDense(DenseGradFilter(gvs));
  }

  /** Undoing a scale of 1 changes nothing. */
  lemma UnscaleByOne(gvs: seq<GradVar>)
    ensures UnscaleGradients(gvs, 1.0) == gvs
  {
  }

  /** Unscaling undoes scaling exactly (with exact arithmetic). */
  lemma UnscaleScaleRoundTrip(gvs: seq<GradVar>, lossScale: real)
    requires lossScale != 0.0
    ensures UnscaleGradients(ScaleGradients(gvs, lossScale), lossScale) == gvs
  {
    var r := UnscaleGradients(ScaleGradients(gvs, lossScale), lossScale);
    forall i | 0 <= i < |gvs|
      ensures r[i] == gvs[i]
    {
      assert r[i].grad * lossScale == gvs[i].grad * lossScale;
    }
  }

  lemma RescaleConcat(a: seq<GradVar>, b: seq<GradVar>, op: Rescale)
    requires ValidRescale(op)
    ensures RescaleGradients(a + b, op) == RescaleGradients(a, op) + RescaleGradients(b, op)
  {
    var lhs, rhs := RescaleGradients(a + b, op), RescaleGradients(a, op) + RescaleGradients(b, op);
    forall i | 0 <= i < |a + b|
      ensures lhs[i] == rhs[i]
    {
      if i < |a| {
        assert (a + b)[i] == a[i];
      } else {
        assert (a + b)[i] == b[i - |a|];
      }
    }
  }

  lemma DenseFilterRescaleSingle(g: GradVar, op: Rescale)
    requires ValidRescale(op)
    ensures DenseGradFilter(RescaleGradients([g], op)) == RescaleGradients(DenseGradFilter([g]), op)
  {
    var g' := Rescaled(g, op);
    assert RescaleGradients([g], op) == [g'];
    assert [g'][1..] == [] && [g][1..] == [];
    assert DenseGradFilter([g']) == if IsDense(g) then [g'] else [];
    assert DenseGradFilter([g]) == if IsDense(g) then [g] else [];
  }

  /** The filter looks only at variable names, so it commutes with any
      rescaling of the gradients: scaling and unscaling alike. */
  lemma {:induction false} DenseFilterCommutesWithRescale(gvs: seq<GradVar>, op: Rescale)
    requires ValidRescale(op)
    ensures DenseGradFilter(RescaleGradients(gvs, op)) == RescaleGradients(DenseGradFilter(gvs), op)
  {
    if |gvs| > 0 {
      var head, tail := gvs[..1], gvs[1..];
      assert gvs == head + tail;
      DenseFilterCommutesWithRescale(tail, op);
      RescaleConcat(head, tail, op);
      DenseFilterConcat(RescaleGradients(head, op), RescaleGradients(tail, op));
      DenseFilterConcat(head, tail);
      RescaleConcat(DenseGradFilter(head), DenseGradFilter(tail), op);
      DenseFilterRescaleSingle(gvs[0], op);
      assert head == [gvs[0]];
    }
  }

  /** The (gradient, variable) pairs handed to the optimizer, given the
      gradients of the unscaled loss. With a scale other than 1 the scaled
      loss is differentiated, the fine-tune filter is applied, and the
      gradients are divided back; a zero scale yields 0/0 for every kept
      gradient. With exact arithmetic the result does not depend on the
      scale, and fine-tuning leaves every non-dense variable without a
      gradient. */
  function GradientsToApply(grads: seq<GradVar>, lossScale: real, fineTune: bool): (r: Result<seq<GradVar>>)
    ensures r.Err? <==> lossScale == 0.0 && |if fineTune then DenseGradFilter(grads) else grads| > 0
    ensures r.Err? ==> r.error == NonFiniteGradient
    ensures r.Ok? ==> r.value == if fineTune then DenseGradFilter(grads) else grads
    ensures r.Ok? && fineTune ==>
              forall i :: 0 <= i < |r.value| ==> IsDense(r.value[i])
  {
    if lossScale != 1.0 then
      var scaled := ScaleGradients(grads, lossScale);
      var kept := if fineTune then DenseGradFilter(scaled) else scaled;
      assert kept == ScaleGradients(if fineTune then DenseGradFilter(grads) else grads, lossScale) by {
        DenseFilterCommutesWithRescale(grads, Times(lossScale));
      }
      if lossScale == 0.0 then
        if |kept| > 0 then Err(NonFiniteGradient) else Ok(kept)
      else
        assert UnscaleGradients(kept, lossScale) == (if fineTune then DenseGradFilter(grads) else grads) by {
          UnscaleScaleRoundTrip(if fineTune then DenseGradFilter(grads) else grads, lossScale);
        }
        Ok(UnscaleGradients(kept, lossScale))
    else
      Ok(if fineTune then DenseGradFilter(grads) else grads)
  }

  /** A loss scale other than zero gives exactly the update of the unscaled
      loss. */
  lemma LossScaleInvariance(grads: seq<GradVar>, lossScale: real, fineTune: bool)
    requires lossScale != 0.0
    ensures GradientsToApply(grads, lossScale, fineTune) == GradientsToApply(grads, 1.0, fineTune)
  {
  }
}

=== FILE: outcomes.dfy ===
/** Failure-carrying results shared by every part of the model. Each error
    kind stands for an exception (or a non-finite TensorFlow value) that the
    training script raises or produces at the modelled point. */
module Outcomes {

  datatype Error =
    | RecordTooShort(length: nat)      // decode/reshape of a short record fails
    | InvalidResnetSize(size: int)     // ValueError: resnet_size must be 6n+2
    | ZeroDivision                     // Python ZeroDivisionError in the schedule set-up
    | TableLengthMismatch              // piecewise_constant: |values| != |boundaries| + 1
    | EmptyBoundaries                  // piecewise_constant: boundaries[0] of an empty list
    | NonFiniteRate                    // 0/0 in the polynomial warmup ramp
    | NonFiniteGradient                // gradient divided by a zero loss scale

  /** Python's optional value: `None` or a present value. */
  datatype Option<+T> = None | Some(value: T)

  datatype Result<+T> = Ok(value: T) | Err(error: Error) {
    predicate IsFailure() { Err? }

    function PropagateFailure<U>(): Result<U>
      requires Err?
    {
      Err(error)
    }

    function Extract(): T
      requires Ok?
    {
      value
    }
  }
}

=== FILE: piecewise.dfy ===
/** The piecewise-constant lookup behind the step-decay schedule: a step
    `x`, ascending `boundaries` b[0] .. b[n-1] and n + 1 `values` select
    values[0] while x <= b[0], values[i] while b[i-1] < x <= b[i], and
    values[n] once x > b[n-1]. */
module Piecewise {
  import opened Outcomes

  ghost predicate Nondecreasing(s: seq<int>) {
    forall i, j :: 0 <= i <= j < |s| ==> s[i] <= s[j]
  }

  /** The same order on reals; Dafny has no type parameter with `<=`. */
  ghost predicate NondecreasingReals(s: seq<real>) {
    forall i, j :: 0 <= i <= j < |s| ==> s[i] <= s[j]
  }

  ghost predicate Nonincreasing(s: seq<real>) {
    forall i, j :: 0 <= i <= j < |s| ==> s[j] <= s[i]
  }

  /** The piece a step falls in according to the interval semantics of the
      lookup: a reference definition independent of how the index is found. */
  ghost predicate SelectsPiece(x: int, b: seq<int>, i: int)
    requires |b| > 0
  {
    || (i == 0 && x <= b[0])
    || (0 < i < |b| && b[i - 1] < x <= b[i])
    || (i == |b| && b[|b| - 1] < x)
  }

  /** Index of the first boundary at or above `x`, or |b| if there is none. */
  function SegmentIndex(x: int, b: seq<int>): (k: nat)
    ensures k <= |b|
    ensures forall i :: 0 <= i < k ==> b[i] < x
    ensures k < |b| ==> x <= b[k]
  {
    if |b| == 0 then 0
    else if x <= b[0] then 0
    else 1 + SegmentIndex(x, b[1..])
  }

  /** piecewise_constant(x, boundaries, values). The table shapes are checked
      first (a length mismatch is a ValueError); an empty boundary list then
      fails on its first element. */
  function PiecewiseConstant(x: int, boundaries: seq<int>, values: seq<real>): (r: Result<real>)
    ensures r.Ok? <==> |boundaries| > 0 && |values| == |boundaries| + 1
    ensures |values| != |boundaries| + 1 ==> r == Err(TableLengthMismatch)
    ensures |values| == 1 && |boundaries| == 0 ==> r == Err(EmptyBoundaries)
    ensures r.Ok? ==> r.value in values
    ensures r.Ok? && x <= boundaries[0] ==> r.value == values[0]
  {
    if |values| != |boundaries| + 1 then Err(TableLengthMismatch)
    else if |boundaries| == 0 then Err(EmptyBoundaries)
    else Ok(values[SegmentIndex(x, boundaries)])
  }

  /** For ascending boundaries the index found is exactly the piece the
      interval semantics selects, and no other piece is selected. */
  lemma SegmentIndexSelectsPiece(x: int, b: seq<int>, i: int)
    requires |b| > 0 && Nondecreasing(b)
    ensures SelectsPiece(x, b, i) <==> i == SegmentIndex(x, b)
  {
  }

  /** With ascending boundaries the index counts the boundaries strictly
      below the step. */
  lemma SegmentIndexCountsBelow(x: int, b: seq<int>)
    requires Nondecreasing(b)
    ensures forall i :: 0 <= i < |b| ==> (i < SegmentIndex(x, b) <==> b[i] < x)
  {
    var k := SegmentIndex(x, b);
    forall i | 0 <= i < |b| && k <= i
      ensures x <= b[i]
    {
      assert b[k] <= b[i];
    }
  }

  /** A later step never falls in an earlier piece. */
  lemma {:induction false} SegmentIndexMonotone(x: int, y: int, b: seq<int>)
    requires x <= y
    ensures SegmentIndex(x, b) <= SegmentIndex(y, b)
  {
    if |b| == 0 || x <= b[0] {
    } else {
      SegmentIndexMonotone(x, y, b[1..]);
    }
  }

  /** The lookup yields the first value up to and including the first
      boundary and the last value past the last boundary. */
  lemma PiecewiseEnds(x: int, b: seq<int>, v: seq<real>)
    requires |b| > 0 && |v| == |b| + 1 && Nondecreasing(b)
    ensures x <= b[0] ==> PiecewiseConstant(x, b, v) == Ok(v[0])
    ensures b[|b| - 1] < x ==> PiecewiseConstant(x, b, v) == Ok(v[|b|])
  {
    if b[|b| - 1] < x {
      SegmentIndexSelectsPiece(x, b, |b|);
    }
  }

  /** Between two consecutive boundaries the lookup yields the matching
      value. */
  lemma PiecewiseInterior(x: int, b: seq<int>, v: seq<real>, i: int)
    requires |b| > 0 && |v| == |b| + 1 && Nondecreasing(b)
    requires 0 < i < |b| && b[i - 1] < x <= b[i]
    ensures PiecewiseConstant(x, b, v) == Ok(v[i])
  {
    SegmentIndexSelectsPiece(x, b, i);
  }

  /** With ascending boundaries and non-increasing values the looked-up rate
      never grows as the step advances. */
  lemma PiecewiseNonincreasing(x: int, y: int, b: seq<int>, v: seq<real>)
    requires |b| > 0 && |v| == |b| + 1 && Nonincreasing(v)
    requires x <= y
    ensures PiecewiseConstant(y, b, v).value <= PiecewiseConstant(x, b, v).value
  {
    SegmentIndexMonotone(x, y, b);
  }
}

=== FILE: record.dfy ===
/** Layout of one CIFAR-10 binary record and its decoding into (image, label).
    A record is one label byte followed by the image stored channel-major
    ([channel, row, column]); decoding reshapes the pixel bytes to that shape
    and transposes them to [row, column, channel]. */
module RecordLayout {
  import opened Outcomes

  const Height: nat := 32
  const Width: nat := 32
  const NumChannels: nat := 3
  const ImageBytes: nat := Height * Width * NumChannels
  const RecordBytes: nat := ImageBytes + 1
  const NumClasses: nat := 10

  /** Bytes per channel plane and per row of a plane. */
  const PlaneBytes: nat := Height * Width
  const RowBytes: nat := Width

  type Byte = b: int | 0 <= b < 256

  /** A rank-3 tensor of bytes, outermost dimension first. */
  type Tensor3 = seq<seq<seq<Byte>>>

  ghost predicate HasShape(t: Tensor3, d0: nat, d1: nat, d2: nat) {
    && |t| == d0
    && (forall i :: 0 <= i < d0 ==> |t[i]| == d1)
    && (forall i, j :: 0 <= i < d0 && 0 <= j < d1 ==> |t[i][j]| == d2)
  }

  /** An image in [height, width, channels] layout. */
  ghost predicate IsImage(t: Tensor3) {
    HasShape(t, Height, Width, NumChannels)
  }

  /** A tensor in [channels, height, width] layout. */
  ghost predicate IsDepthMajor(t: Tensor3) {
    HasShape(t, NumChannels, Height, Width)
  }

  /** Offset of pixel (h, w, c) inside the channel-major pixel bytes. */
  function PixelOffset(h: nat, w: nat, c: nat): nat {
    c * PlaneBytes + h * RowBytes + w
  }

  datatype Decoded = Decoded(image: Tensor3, classLabel: int)

  /** Reshape of the flat pixel bytes to [channels, height, width]. */
  function DepthMajor(v: seq<Byte>): (t: Tensor3)
    requires |v| == ImageBytes
    ensures IsDepthMajor(t)
    ensures forall c, h, w :: 0 <= c < NumChannels && 0 <= h < Height && 0 <= w < Width ==>
              t[c][h][w] == v[PixelOffset(h, w, c)]
  {
    seq(NumChannels, c requires 0 <= c < NumChannels =>
      seq(Height, h requires 0 <= h < Height =>
        seq(Width, w requires 0 <= w < Width => v[c * PlaneBytes + h * RowBytes + w])))
  }

  /** Transpose with permutation [1, 2, 0]: [C, H, W] to [H, W, C]. */
  function ToChannelsLast(t: Tensor3): (img: Tensor3)
    requires IsDepthMajor(t)
    ensures IsImage(img)
    ensures forall h, w, c :: 0 <= h < Height && 0 <= w < Width && 0 <= c < NumChannels ==>
              img[h][w][c] == t[c][h][w]
  {
    seq(Height, h requires 0 <= h < Height =>
      seq(Width, w requires 0 <= w < Width =>
        seq(NumChannels, c requires 0 <= c < NumChannels => t[c][h][w])))
  }

  /** Transpose with permutation [2, 0, 1]: [H, W, C] back to [C, H, W]. */
  function ToChannelsFirst(img: Tensor3): (t: Tensor3)
    requires IsImage(img)
    ensures IsDepthMajor(t)
    ensures forall c, h, w :: 0 <= c < NumChannels && 0 <= h < Height && 0 <= w < Width ==>
              t[c][h][w] == img[h][w][c]
  {
    seq(NumChannels, c requires 0 <= c < NumChannels =>
      seq(Height, h requires 0 <= h < Height =>
        seq(Width, w requires 0 <= w < Width => img[h][w][c])))
  }

  /** Row-major flattening of a [C, H, W] tensor: the inverse of DepthMajor. */
  function FlattenDepthMajor(t: Tensor3): (v: seq<Byte>)
    requires IsDepthMajor(t)
    ensures |v| == ImageBytes
  {
    seq(ImageBytes, i requires 0 <= i < ImageBytes =>
      t[i / PlaneBytes][(i % PlaneBytes) / RowBytes][i % RowBytes])
  }

  /** Decodes the pixel bytes of a record into a [H, W, C] image. */
  function DecodeImage(v: seq<Byte>): (img: Tensor3)
    requires |v| == ImageBytes
    ensures IsImage(img)
    ensures forall h, w, c :: 0 <= h < Height && 0 <= w < Width && 0 <= c < NumChannels ==>
              img[h][w][c] == v[PixelOffset(h, w, c)]
  {
    ToChannelsLast(DepthMajor(v))
  }

  /** Encodes a [H, W, C] image back into channel-major pixel bytes. */
  function EncodeImage(img: Tensor3): (v: seq<Byte>)
    requires IsImage(img)
    ensures |v| == ImageBytes
  {
    FlattenDepthMajor(ToChannelsFirst(img))
  }

  /** parse_record without the augmentation: the label is byte 0, the image
      is bytes 1 .. RecordBytes - 1 in channel-major order. A record too short
      to hold a label and a full image fails; trailing bytes past RecordBytes
      are not read. */
  function DecodeRecord(raw: seq<Byte>): (r: Result<Decoded>)
    ensures r.Err? <==> |raw| < RecordBytes
    ensures r.Err? ==> r.error == RecordTooShort(|raw|)
    ensures r.Ok? ==> r.value.classLabel == raw[0] && 0 <= r.value.classLabel < 256
    ensures r.Ok? ==> IsImage(r.value.image)
    ensures r.Ok? ==>
              forall h, w, c :: 0 <= h < Height && 0 <= w < Width && 0 <= c < NumChannels ==>
                r.value.image[h][w][c] == raw[1 + c * PlaneBytes + h * RowBytes + w]
  {
    if |raw| < RecordBytes then Err(RecordTooShort(|raw|))
    else Ok(Decoded(DecodeImage(raw[1..RecordBytes]), raw[0]))
  }

  /** Builds the record that holds a given label byte and image. */
  function EncodeRecord(labelByte: Byte, img: Tensor3): (raw: seq<Byte>)
    requires IsImage(img)
    ensures |raw| == RecordBytes && raw[0] == labelByte
  {
    [labelByte] + EncodeImage(img)
  }

  /** The offset arithmetic is a bijection between pixel coordinates and
      byte positions. */
  lemma OffsetDecomposes(i: int)
    requires 0 <= i < ImageBytes
    ensures var c, h, w := i / PlaneBytes, (i % PlaneBytes) / RowBytes, i % RowBytes;
            && 0 <= c < NumChannels && 0 <= h < Height && 0 <= w < Width
            && PixelOffset(h, w, c) == i
  {
  }

  lemma OffsetRecomposes(h: int, w: int, c: int)
    requires 0 <= h < Height && 0 <= w < Width && 0 <= c < NumChannels
    ensures var i := PixelOffset(h, w, c);
            i / PlaneBytes == c && (i % PlaneBytes) / RowBytes == h && i % RowBytes == w
  {
  }

  /** Decoding then reversing the layout transform gives the pixel bytes back. */
  lemma EncodeDecodeImage(v: seq<Byte>)
    requires |v| == ImageBytes
    ensures EncodeImage(DecodeImage(v)) == v
  {
    var img := DecodeImage(v);
    var back := EncodeImage(img);
    forall i | 0 <= i < ImageBytes
      ensures back[i] == v[i]
    {
      OffsetDecomposes(i);
    }
  }

  /** Encoding then decoding gives the image back, so the layout map is a
      bijection between pixel byte strings and images. */
  lemma DecodeEncodeImage(img: Tensor3)
    requires IsImage(img)
    ensures DecodeImage(EncodeImage(img)) == img
  {
    var v := EncodeImage(img);
    var img' := DecodeImage(v);
    forall h, w, c | 0 <= h < Height && 0 <= w < Width && 0 <= c < NumChannels
      ensures img'[h][w][c] == img[h][w][c]
    {
      OffsetRecomposes(h, w, c);
    }
    forall h | 0 <= h < Height
      ensures img'[h] == img[h]
    {
      forall w | 0 <= w < Width
        ensures img'[h][w] == img[h][w]
      {
      }
    }
  }

  /** A record round-trips through decoding: the label and every pixel byte
      are recovered exactly. */
  lemma DecodeRecordRoundTrip(raw: seq<Byte>)
    requires |raw| == RecordBytes
    ensures DecodeRecord(raw).Ok?
    ensures EncodeRecord(DecodeRecord(raw).value.classLabel, DecodeRecord(raw).value.image) == raw
  {
    EncodeDecodeImage(raw[1..]);
    assert raw == [raw[0]] + raw[1..];
  }

  /** Every label byte and image is reached by decoding exactly one record. */
  lemma EncodeRecordRoundTrip(labelByte: Byte, img: Tensor3)
    requires IsImage(img)
    ensures DecodeRecord(EncodeRecord(labelByte, img)) == Ok(Decoded(img, labelByte))
  {
    var raw := EncodeRecord(labelByte, img);
    assert raw[1..RecordBytes] == EncodeImage(img);
    DecodeEncodeImage(img);
  }

  /** The record length is a label byte plus a 32 x 32 x 3 image. */
  lemma RecordLengthIs3073()
    ensures RecordBytes == 3073 && ImageBytes == 3072
  {
  }
}

=== FILE: schedule.dfy ===
/** The two learning-rate schedules of the training script, as pure
    functions of the global step. Rates are exact reals; Python's `int()` on
    a float is truncation toward zero. The polynomial decay curve itself is a
    library call and is represented by its arguments. */
module LearningRate {
  import opened Outcomes
  import opened Piecewise

  /** Length of the linear warmup of the step-decay schedule, in epochs. */
  const StepWarmupEpochs: real := 5.0
  /** Fixed epoch budget over which the polynomial schedule decays. */
  const PolyTrainEpochs: real := 90.0
  /** The library's default end rate of a polynomial decay; none is passed. */
  const PolyEndRate: real := 0.0001
  /** Exponent of the polynomial decay. */
  const PolyPower: real := 2.0

  /** Python's `int(x)` on a float: truncation toward zero. */
  function Trunc(x: real): (n: int)
    ensures 0.0 <= x ==> 0 <= n && n as real <= x < n as real + 1.0
    ensures x < 0.0 ==> n <= 0 && n as real - 1.0 < x <= n as real
  {
    if x >= 0.0 then x.Floor else -((-x).Floor)
  }

  lemma TruncOfWhole(n: int)
    ensures Trunc(n as real) == n
  {
  }

  lemma TruncMonotone(x: real, y: real)
    requires x <= y
    ensures Trunc(x) <= Trunc(y)
  {
  }

  /** The whole number of steps reached after `epoch` epochs. */
  function EpochToStep(batchesPerEpoch: real, epoch: real): int {
    Trunc(batchesPerEpoch * epoch)
  }

  /** Tables built once from the configuration. */
  datatype Tables = Tables(
    initialRate: real,
    batchesPerEpoch: real,
    boundaries: seq<int>,
    vals: seq<real>)

  /** The value of the schedule at one step: an exact rate, or the arguments
      of the library's polynomial decay: it starts from `peakRate`, is at
      position `decayStep` of a decay spanning `decayHorizon` steps, and
      falls with exponent `power` toward `endRate`. */
  datatype RateValue =
    | Rate(rate: real)
    | PolynomialDecay(peakRate: real, decayStep: int, decayHorizon: real, endRate: real, power: real)

  /** The learning-rate function returned by the set-up: step decay (with or
      without warmup) or, when LARS is enabled, the polynomial schedule. */
  datatype Schedule =
    | StepDecay(tables: Tables, warmup: bool)
    | Poly(tables: Tables, batchSize: int)

  /** The arguments of learning_rate_with_decay, plus the two global flags
      it reads: `flagBatchSize` picks the LARS bracket, while `batchSize`
      (the argument) builds the tables. */
  datatype ScheduleConfig = ScheduleConfig(
    batchSize: int,
    flagBatchSize: int,
    batchDenom: int,
    numImages: int,
    boundaryEpochs: seq<real>,
    decayRates: seq<real>,
    baseLr: real,
    warmup: bool,
    enableLars: bool)

  /** Both tables have the shapes the piecewise lookup accepts. */
  ghost predicate WellShaped(t: Tables) {
    |t.boundaries| > 0 && |t.vals| == |t.boundaries| + 1
  }

  /** The initial rate is the base rate scaled linearly with the batch size;
      a step boundary is the epoch boundary converted to whole steps; each
      table value is the initial rate times its decay multiplier. A zero
      batch size or denominator is Python's ZeroDivisionError. */
  function BuildTables(batchSize: int, batchDenom: int, numImages: int,
                       boundaryEpochs: seq<real>, decayRates: seq<real>, baseLr: real): (r: Result<Tables>)
    ensures r.Err? <==> batchDenom == 0 || batchSize == 0
    ensures r.Err? ==> r.error == ZeroDivision
    ensures r.Ok? ==> r.value.initialRate * batchDenom as real == baseLr * batchSize as real
    ensures r.Ok? ==> r.value.batchesPerEpoch * batchSize as real == numImages as real
    ensures r.Ok? ==> |r.value.boundaries| == |boundaryEpochs|
    ensures r.Ok? ==> forall i :: 0 <= i < |boundaryEpochs| ==>
                        r.value.boundaries[i] == EpochToStep(r.value.batchesPerEpoch, boundaryEpochs[i])
    ensures r.Ok? ==> |r.value.vals| == |decayRates|
    ensures r.Ok? ==> forall i :: 0 <= i < |decayRates| ==>
                        r.value.vals[i] == r.value.initialRate * decayRates[i]
  {
    if batchDenom == 0 || batchSize == 0 then Err(ZeroDivision)
    else
      var initial := baseLr * batchSize as real / batchDenom as real;
      var perEpoch := numImages as real / batchSize as real;
      DivThenMultiply(baseLr * batchSize as real, batchDenom as real);
      DivThenMultiply(numImages as real, batchSize as real);
      Ok(Tables(
        initial,
        perEpoch,
        seq(|boundaryEpochs|, i requires 0 <= i < |boundaryEpochs| => EpochToStep(perEpoch, boundaryEpochs[i])),
        seq(|decayRates|, i requires 0 <= i < |decayRates| => initial * decayRates[i])))
  }

  /** A linear ramp from 0 at step 0 to `peak` at step `steps`. */
  function Ramp(peak: real, step: nat, steps: int): (r: real)
    requires 0 < steps
    ensures r * steps as real == peak * step as real
  {
    DivThenMultiply(peak * step as real, steps as real);
    peak * step as real / steps as real
  }

  /** The ramp starts at 0, is non-decreasing, stays within [0, peak] up to
      its last step, is strictly below a positive peak before it, and
      reaches the peak exactly there. */
  lemma RampBounds(peak: real, step: nat, steps: int)
    requires 0 < steps && 0.0 <= peak && step <= steps
    ensures Ramp(peak, 0, steps) == 0.0
    ensures 0.0 <= Ramp(peak, step, steps) <= peak
    ensures step < steps && 0.0 < peak ==> Ramp(peak, step, steps) < peak
    ensures Ramp(peak, steps, steps) == peak
  {
    var w := steps as real;
    MultiplyMonotone(peak, 0.0, step as real);
    DivideMonotone(0.0, peak * step as real, w);
    MultiplyMonotone(peak, step as real, w);
    DivideMonotone(peak * step as real, peak * w, w);
    MultiplyThenDivide(peak, w);
    if step < steps && 0.0 < peak {
      assert peak * step as real < peak * w;
      DivThenMultiply(peak * step as real, w);
      if peak <= Ramp(peak, step, steps) {
        MultiplyMonotone(w, peak, Ramp(peak, step, steps));
      }
    }
  }

  lemma RampMonotone(peak: real, s1: nat, s2: nat, steps: int)
    requires 0 < steps && 0.0 <= peak && s1 <= s2
    ensures Ramp(peak, s1, steps) <= Ramp(peak, s2, steps)
  {
    MultiplyMonotone(peak, s1 as real, s2 as real);
    DivideMonotone(peak * s1 as real, peak * s2 as real, steps as real);
  }

  /** Length of the step-decay warmup, in steps: five epochs of batches,
      truncated toward zero. */
  function WarmupSteps(t: Tables): (n: int)
    ensures 0.0 <= t.batchesPerEpoch ==>
              0 <= n && n as real <= t.batchesPerEpoch * 5.0 < n as real + 1.0
    ensures t.batchesPerEpoch < 0.0 ==>
              n <= 0 && n as real - 1.0 < t.batchesPerEpoch * 5.0 <= n as real
  {
    Trunc(t.batchesPerEpoch * StepWarmupEpochs)
  }

  /** The step-decay rate, optionally preceded by a linear warmup that is in
      force strictly before `WarmupSteps`. The table lookup is built first,
      so a malformed table fails even during warmup. */
  function StepDecayRate(t: Tables, warmup: bool, step: nat): (r: Result<real>)
    ensures r.Ok? <==> WellShaped(t)
    ensures r.Err? ==> r == PiecewiseConstant(step, t.boundaries, t.vals)
    ensures r.Ok? && warmup && step < WarmupSteps(t) ==>
              0 < WarmupSteps(t) && r.value == Ramp(t.initialRate, step, WarmupSteps(t))
    ensures r.Ok? && !(warmup && step < WarmupSteps(t)) ==>
              r == PiecewiseConstant(step, t.boundaries, t.vals)
  {
    var lr :- PiecewiseConstant(step, t.boundaries, t.vals);
    var warmupSteps := WarmupSteps(t);
    if warmup && step < warmupSteps then Ok(Ramp(t.initialRate, step, warmupSteps))
    else Ok(lr)
  }

  /** Peak rate and warmup length, in epochs, of the polynomial schedule. */
  datatype Bracket = Bracket(peakRate: real, warmupEpochs: int)

  /** The bracket chosen by batch size: below 8192, below 16384, below 32768,
      or above. */
  function PolyBracket(batchSize: int): (b: Bracket)
    ensures batchSize < 8192 ==> b == Bracket(5.0, 5)
    ensures 8192 <= batchSize < 16384 ==> b == Bracket(10.0, 5)
    ensures 16384 <= batchSize < 32768 ==> b == Bracket(25.0, 5)
    ensures 32768 <= batchSize ==> b == Bracket(32.0, 14)
  {
    if batchSize < 8192 then Bracket(5.0, 5)
    else if batchSize < 16384 then Bracket(10.0, 5)
    else if batchSize < 32768 then Bracket(25.0, 5)
    else Bracket(32.0, 14)
  }

  /** Length of the polynomial warmup, in steps: the bracket's warmup
      epochs of batches, truncated toward zero. */
  function PolyWarmupSteps(t: Tables, batchSize: int): (n: int)
    ensures 0.0 <= t.batchesPerEpoch ==>
              0 <= n && n as real <= PolyBracket(batchSize).warmupEpochs as real * t.batchesPerEpoch < n as real + 1.0
    ensures t.batchesPerEpoch < 0.0 ==>
              n <= 0 && n as real - 1.0 < PolyBracket(batchSize).warmupEpochs as real * t.batchesPerEpoch <= n as real
  {
    Trunc(PolyBracket(batchSize).warmupEpochs as real * t.batchesPerEpoch)
  }

  function Max(a: int, b: int): int {
    if a < b then b else a
  }

  /** The polynomial schedule: a linear ramp to the peak rate up to and
      including the last warmup step, then polynomial decay over the rest of
      the 90-epoch budget. A ramp of zero steps divides 0 by 0 at step 0. */
  function PolyRate(t: Tables, batchSize: int, step: nat): (r: Result<RateValue>)
    ensures r.Err? <==> step == 0 && PolyWarmupSteps(t, batchSize) == 0
    ensures r.Err? ==> r.error == NonFiniteRate
    ensures r.Ok? && step <= PolyWarmupSteps(t, batchSize) ==>
              && r.value.Rate?
              && r.value.rate == Ramp(PolyBracket(batchSize).peakRate, step, PolyWarmupSteps(t, batchSize))
    ensures r.Ok? && PolyWarmupSteps(t, batchSize) < step ==>
              && r.value.PolynomialDecay?
              && r.value.peakRate == PolyBracket(batchSize).peakRate
              && r.value.decayStep >= 1
              && r.value.decayStep == step - PolyWarmupSteps(t, batchSize)
              && r.value.decayHorizon
                 == t.batchesPerEpoch * PolyTrainEpochs - PolyWarmupSteps(t, batchSize) as real + 1.0
              && r.value.endRate == PolyEndRate
              && r.value.power == PolyPower
  {
    var bracket := PolyBracket(batchSize);
    var wSteps := PolyWarmupSteps(t, batchSize);
    if step <= wSteps then
      if wSteps == 0 then Err(NonFiniteRate)
      else Ok(Rate(Ramp(bracket.peakRate, step, wSteps)))
    else
      var trainSteps := t.batchesPerEpoch * PolyTrainEpochs;
      Ok(PolynomialDecay(bracket.peakRate, Max(1, step - wSteps), trainSteps - wSteps as real + 1.0,
                         PolyEndRate, PolyPower))
  }

  /** learning_rate_with_decay: the tables are built in every case; LARS
      selects the polynomial schedule. */
  function LearningRateWithDecay(cfg: ScheduleConfig): (r: Result<Schedule>)
    ensures r.Err? <==> cfg.batchDenom == 0 || cfg.batchSize == 0
    ensures r.Ok? ==> (r.value.Poly? <==> cfg.enableLars)
    ensures r.Ok? && r.value.Poly? ==> r.value.batchSize == cfg.flagBatchSize
    ensures r.Ok? && r.value.StepDecay? ==> r.value.warmup == cfg.warmup
    ensures r.Ok? ==> r.value.tables == BuildTables(cfg.batchSize, cfg.batchDenom, cfg.numImages,
                                                    cfg.boundaryEpochs, cfg.decayRates, cfg.baseLr).value
  {
    var t :- BuildTables(cfg.batchSize, cfg.batchDenom, cfg.numImages,
                         cfg.boundaryEpochs, cfg.decayRates, cfg.baseLr);
    if cfg.enableLars then Ok(Poly(t, cfg.flagBatchSize)) else Ok(StepDecay(t, cfg.warmup))
  }

  /** The learning rate of a schedule at a global step. */
  function RateAt(s: Schedule, step: nat): (r: Result<RateValue>)
    ensures s.StepDecay? ==> (r.Ok? <==> WellShaped(s.tables))
    ensures s.StepDecay? && r.Ok? ==> r.value == Rate(StepDecayRate(s.tables, s.warmup, step).value)
    ensures s.StepDecay? && r.Err? ==> r.error == StepDecayRate(s.tables, s.warmup, step).error
    ensures s.Poly? ==> r == PolyRate(s.tables, s.batchSize, step)
  {
    match s
    case StepDecay(t, warmup) =>
      var lr :- StepDecayRate(t, warmup, step);
      Ok(Rate(lr))
    case Poly(t, batchSize) => PolyRate(t, batchSize, step)
  }

  // ---------------------------------------------------------------------------
  // The CIFAR-10 configuration

  const CifarBatchDenom: int := 32
  const CifarNumImages: int := 48000
  const CifarBaseLr: real := 0.1
  const CifarBoundaryEpochs: seq<real> := [91.0, 126.0, 182.0]
  const CifarDecayRates: seq<real> := [1.0, 0.1, 0.01, 0.001]

  /** The CIFAR-10 model function passes `params['batch_size']` as the
      argument, and the estimator set-up fills that parameter from the
      batch-size flag, so the argument and the flag are one value here. */
  function CifarConfig(batchSize: int, enableLars: bool): ScheduleConfig {
    ScheduleConfig(batchSize, batchSize, CifarBatchDenom, CifarNumImages, CifarBoundaryEpochs,
                   CifarDecayRates, CifarBaseLr, false, enableLars)
  }

  // ---------------------------------------------------------------------------
  // Properties

  /** Batch 128 with denominator 32 and base rate 0.1 starts at 0.4, and the
      CIFAR epoch boundaries fall on steps 34125, 47250 and 68250. */
  lemma CifarBatch128Tables()
    ensures BuildTables(128, CifarBatchDenom, CifarNumImages, CifarBoundaryEpochs, CifarDecayRates, CifarBaseLr)
            == Ok(Tables(0.4, 375.0, [34125, 47250, 68250], [0.4, 0.04, 0.004, 0.0004]))
  {
    var r := BuildTables(128, CifarBatchDenom, CifarNumImages, CifarBoundaryEpochs, CifarDecayRates, CifarBaseLr);
    assert r.value.initialRate == 0.4;
    assert r.value.batchesPerEpoch == 375.0;
    TruncOfWhole(34125);
    TruncOfWhole(47250);
    TruncOfWhole(68250);
    assert r.value.boundaries == [34125, 47250, 68250];
    assert r.value.vals == [0.4, 0.04, 0.004, 0.0004];
  }

  /** For batch 128 both warmups last five epochs of 375 batches: 1875
      steps. */
  lemma CifarBatch128WarmupSteps()
    ensures WarmupSteps(BuildTables(128, CifarBatchDenom, CifarNumImages, CifarBoundaryEpochs, CifarDecayRates, CifarBaseLr).value) == 1875
    ensures PolyWarmupSteps(BuildTables(128, CifarBatchDenom, CifarNumImages, CifarBoundaryEpochs, CifarDecayRates, CifarBaseLr).value, 128) == 1875
  {
    CifarBatch128Tables();
  }

  /** Ascending epoch boundaries give ascending step boundaries. */
  lemma BoundariesNondecreasing(batchSize: int, batchDenom: int, numImages: int,
                                                   boundaryEpochs: seq<real>, decayRates: seq<real>, baseLr: real)
    requires batchSize > 0 && batchDenom != 0 && numImages >= 0
    requires NondecreasingReals(boundaryEpochs)
    ensures Nondecreasing(BuildTables(batchSize, batchDenom, numImages, boundaryEpochs, decayRates, baseLr).value.boundaries)
  {
    var t := BuildTables(batchSize, batchDenom, numImages, boundaryEpochs, decayRates, baseLr).value;
    var bpe := t.batchesPerEpoch;
    CancelPositive(0.0, bpe, batchSize as real);
    forall i, j | 0 <= i <= j < |t.boundaries|
      ensures t.boundaries[i] <= t.boundaries[j]
    {
      assert t.boundaries[i] == EpochToStep(bpe, boundaryEpochs[i]);
      assert t.boundaries[j] == EpochToStep(bpe, boundaryEpochs[j]);
      EpochToStepMonotone(bpe, boundaryEpochs[i], boundaryEpochs[j]);
    }
  }

  lemma EpochToStepMonotone(batchesPerEpoch: real, e1: real, e2: real)
    requires 0.0 <= batchesPerEpoch && e1 <= e2
    ensures EpochToStep(batchesPerEpoch, e1) <= EpochToStep(batchesPerEpoch, e2)
  {
    MultiplyMonotone(batchesPerEpoch, e1, e2);
    TruncMonotone(batchesPerEpoch * e1, batchesPerEpoch * e2);
  }

  lemma MultiplyMonotone(k: real, x: real, y: real)
    requires 0.0 <= k && x <= y
    ensures k * x <= k * y
  {
  }

  lemma DivThenMultiply(a: real, b: real)
    requires b != 0.0
    ensures (a / b) * b == a
  {
  }

  lemma DivideMonotone(x: real, y: real, w: real)
    requires 0.0 < w && x <= y
    ensures x / w <= y / w
  {
    DivThenMultiply(x, w);
    DivThenMultiply(y, w);
    CancelPositive(x / w, y / w, w);
  }

  lemma MultiplyThenDivide(a: real, w: real)
    requires w != 0.0
    ensures a * w / w == a
  {
  }

  lemma CancelPositive(a: real, b: real, w: real)
    requires 0.0 < w && a * w <= b * w
    ensures a <= b
  {
    assert (b - a) * w >= 0.0;
  }

  /** Non-increasing decay multipliers and a non-negative initial rate give
      non-increasing table values. */
  lemma ValuesNonincreasing(batchSize: int, batchDenom: int, numImages: int,
                                               boundaryEpochs: seq<real>, decayRates: seq<real>, baseLr: real)
    requires batchSize > 0 && batchDenom > 0 && baseLr >= 0.0
    requires Nonincreasing(decayRates)
    ensures Nonincreasing(BuildTables(batchSize, batchDenom, numImages, boundaryEpochs, decayRates, baseLr).value.vals)
  {
    var t := BuildTables(batchSize, batchDenom, numImages, boundaryEpochs, decayRates, baseLr).value;
    var initial := t.initialRate;
    MultiplyMonotone(batchSize as real, 0.0, baseLr);
    CancelPositive(0.0, initial, batchDenom as real);
    forall i, j | 0 <= i <= j < |t.vals|
      ensures t.vals[j] <= t.vals[i]
    {
      MultiplyMonotone(initial, decayRates[j], decayRates[i]);
    }
  }

  /** With the CIFAR-10 decay multipliers the step-decay rate never grows
      as training proceeds. */
  lemma CifarStepDecayNonincreasing(batchSize: int, s1: nat, s2: nat)
    requires batchSize > 0 && s1 <= s2
    ensures LearningRateWithDecay(CifarConfig(batchSize, false)).Ok?
    ensures RateAt(LearningRateWithDecay(CifarConfig(batchSize, false)).value, s1).Ok?
    ensures RateAt(LearningRateWithDecay(CifarConfig(batchSize, false)).value, s2).value.rate
            <= RateAt(LearningRateWithDecay(CifarConfig(batchSize, false)).value, s1).value.rate
  {
    var t := BuildTables(batchSize, CifarBatchDenom, CifarNumImages, CifarBoundaryEpochs, CifarDecayRates, CifarBaseLr).value;
    assert Nonincreasing(CifarDecayRates);
    ValuesNonincreasing(batchSize, CifarBatchDenom, CifarNumImages, CifarBoundaryEpochs, CifarDecayRates, CifarBaseLr);
    PiecewiseNonincreasing(s1, s2, t.boundaries, t.vals);
  }

  /** The warmup starts from a zero rate. */
  lemma WarmupStartsAtZero(t: Tables)
    requires WellShaped(t) && WarmupSteps(t) > 0
    ensures StepDecayRate(t, true, 0) == Ok(0.0)
  {
  }

  /** During warmup the rate is non-negative and stays strictly below the
      initial rate. */
  lemma WarmupBelowInitial(t: Tables, step: nat)
    requires WellShaped(t) && t.initialRate > 0.0 && step < WarmupSteps(t)
    ensures 0.0 <= StepDecayRate(t, true, step).value < t.initialRate
  {
    RampBounds(t.initialRate, step, WarmupSteps(t));
  }

  /** The warmup ramp is non-decreasing in the step. */
  lemma WarmupMonotone(t: Tables, s1: nat, s2: nat)
    requires WellShaped(t) && t.initialRate >= 0.0 && s1 <= s2 < WarmupSteps(t)
    ensures StepDecayRate(t, true, s1).value <= StepDecayRate(t, true, s2).value
  {
    RampMonotone(t.initialRate, s1, s2, WarmupSteps(t));
  }

  /** From the end of warmup on, the warmed-up schedule is the plain step
      decay; when the first boundary is not before the end of warmup, the
      rate at that step is the first table value. */
  lemma AfterWarmupIsStepDecay(t: Tables, step: nat)
    requires WellShaped(t) && WarmupSteps(t) <= step
    ensures StepDecayRate(t, true, step) == StepDecayRate(t, false, step)
    ensures step <= t.boundaries[0] ==> StepDecayRate(t, true, step) == Ok(t.vals[0])
  {
  }

  /** The polynomial peak rate never decreases as the batch size grows. */
  lemma PolyPeakMonotone(b1: int, b2: int)
    requires b1 <= b2
    ensures PolyBracket(b1).peakRate <= PolyBracket(b2).peakRate
    ensures PolyBracket(b1).warmupEpochs <= PolyBracket(b2).warmupEpochs
  {
  }

  /** The polynomial ramp starts at 0, stays within [0, peak] and reaches the
      peak exactly at the last warmup step (the ramp test includes it,
      unlike the step-decay warmup). */
  lemma PolyRamp(t: Tables, batchSize: int, step: nat)
    requires 0 < PolyWarmupSteps(t, batchSize) && step <= PolyWarmupSteps(t, batchSize)
    ensures PolyRate(t, batchSize, step).Ok? && PolyRate(t, batchSize, step).value.Rate?
    ensures 0.0 <= PolyRate(t, batchSize, step).value.rate <= PolyBracket(batchSize).peakRate
    ensures step == 0 ==> PolyRate(t, batchSize, step).value.rate == 0.0
    ensures step == PolyWarmupSteps(t, batchSize) ==>
              PolyRate(t, batchSize, step).value.rate == PolyBracket(batchSize).peakRate
  {
    RampBounds(PolyBracket(batchSize).peakRate, step, PolyWarmupSteps(t, batchSize));
  }
}
